=== FILE: README.md ===
# Extractive text summariser: submission workflow and sentence selection

This project models the core of a two-part extractive summariser and proves properties of the model.

The first part is a React web client. The user picks a `.txt` file, tunes three parameters and submits. The client sends the file to a summarisation service, shows the summary or an error, and offers the generated summary file for download. The second part is the Python summariser. It splits a text into sentences, ranks them by PageRank scores over BERT embeddings, and keeps the best-ranked ones in text order.

Modules, one per source component:

- `Common` (`common.dfy`): `Option` and `Byte`.
- `UriEncoding` (`uri_encoding.dfy`): ECMAScript `encodeURIComponent` (ECMA-262, section 19.2.6.5). A character outside the unreserved set is written as its UTF-8 octets, each as a `%XY` triplet (section 2.1 of RFC 3986). An independent decoder is proved to invert it.
- `SummaryControls` (`summary_controls.dfy`): the parameter record, the field update used by the change callback, the four +/- buttons and the ratio slider.
- `FileUpload` (`file_upload.dfy`): the browse and drop channels of the upload area and their shared acceptance rule.
- `App` (`app.dfy`): the top-level component as a class with its six state slots. It has the file, parameter, submit and download handlers. The download address has a reader, and the address is proved to give both identifiers back.
- `Sentences` (`sentences.dfy`): the sentence splitter. This is the split-point regular expression, `re.split`, `strip` and the filtering comprehension.
- `Summarizer` (`summarizer.dfy`): the ranking, the sentence count, the order-preserving selection, the join and `summarize`.

The asynchronous submit handler becomes two steps. `BeginSubmit` runs up to the `await` and returns the request it sends. `CompleteSubmit` applies the awaited outcome and then clears `loading`, as the `finally` block does. The outcome is an abstract value: an ok body, a failure body whose `error` may be missing, or an exception. The submit button is the only guard against re-entry (`disabled={!file || loading}`). So `BeginSubmit` requires `loading` to be false. The no-file branch of the handler is still modelled.

Three behaviours of the client that are easy to miss:

- The parameters do not always keep min ≤ max. The "min +" button ignores max (`MinPlusBreaksOrder`, `MinPlusFromDefaults`). Once min exceeds max, "max -" raises max up to min (`MaxMinusRaisesMax`).
- A failed resubmission keeps the previous download identifiers. `CompleteSubmit` states this, and `SessionScenario` shows it. The download control is only displayed beside a non-empty summary.
- The answer to a pending request is still applied after a new file was chosen. `ReselectWhileLoading` shows this.

In the summariser, Python's `int()` on `len(sentences) * ratio` is truncation toward zero on a real number. The slice `ranked[:k]` follows Python for negative `k` too: it drops `-k` elements from the end. So the number of selected sentences equals `num_sentences` only when that number is not negative.

## Model

| member | source | states |
|---|---|---|
| `UriEncoding.EncodeURIComponent` | frontend/src/App.jsx:111 | the encoding uses only unreserved characters and `%`, so it holds no `/` and no space, and is at least as long as the input |
| `UriEncoding.EncodeRoundTrip` | frontend/src/App.jsx:111 | decoding an encoded string gives back the string, for every string |
| `UriEncoding.EncodeInjective` | frontend/src/App.jsx:111 | two strings with the same encoding are equal |
| `UriEncoding.Utf8RoundTrip` | frontend/src/App.jsx:111 | UTF-8 decoding inverts the UTF-8 encoding the percent-encoding starts from |
| `UriEncoding.PercentDecodeEncode` | frontend/src/App.jsx:111 | percent-decoding an encoded string gives that string's UTF-8 octets |
| `UriEncoding.HexDigit` | frontend/src/App.jsx:111 | each triplet digit is an unreserved character, and its hexadecimal value is the nibble it encodes |
| `App.DownloadUrl` | frontend/src/App.jsx:111 | the address starts with the download route, and after it the only `/` is the one between the two encoded identifiers |
| `App.SummarizerApp.SubmitDisabled` | frontend/src/App.jsx:151 | the submit button is disabled while no file is held or a request is pending; `BeginSubmit` sends a request exactly when it was enabled |
| `App.DownloadUrlRoundTrip` | frontend/src/App.jsx:108-113 | both identifiers are read back unchanged from the address the download handler builds, whatever characters they hold |
| `App.DownloadUrlInjective` | frontend/src/App.jsx:108-113 | different download identifiers give different addresses |
| `App.ServerErrorMessage` | frontend/src/App.jsx:96-97 | the shown error is never empty: the server's message when it is present and non-empty, else the fallback text |
| `App.SummarizerApp.constructor` | frontend/src/App.jsx:14-23 | no file, empty summary and error, not loading, no download identifiers, parameters 0.3/3/10 |
| `App.SummarizerApp.HandleFileChange` | frontend/src/App.jsx:48-54 | stores the file and clears the summary, the error and the download identifiers; `loading` and the parameters are unchanged |
| `App.SummarizerApp.HandleParamChange` | frontend/src/App.jsx:56-61 | sets exactly the named parameter to the value, without clamping; the other two parameters and all other state are unchanged |
| `App.SummarizerApp.BeginSubmit` | frontend/src/App.jsx:63-78 | entered only while not loading, as the button guard at line 151 allows; sends a request exactly when a file is held. Without a file it sets the "Please select a text file" error and sends nothing. With a file it sets `loading`, clears error and summary, and sends the file with the parameters as they were |
| `App.SummarizerApp.CompleteSubmit` | frontend/src/App.jsx:80-105 | always ends with `loading` false and the button enabled. Ok: summary and download identifiers from the body, error empty. Failure status: the server's message or the fallback. Exception: the connection message. On both failures the summary stays empty and the download identifiers stay as they were. Never both a summary and an error |
| `App.SummarizerApp.HandleDownload` | frontend/src/App.jsx:108-116 | no address without download identifiers; otherwise the address built from both encoded identifiers, which reads back to them |
| `SummaryControls.SummaryParams.With` | frontend/src/App.jsx:56-61 | the named field takes the value and the other two keep theirs |
| `SummaryControls.StepValue` | frontend/src/components/SummaryControls.jsx:52-114 | each button's value is one of the two arguments of its clamp and at least (or at most) both: "min -" is the larger of 1 and min - 1, "min +" the smaller of 20 and min + 1, "max -" the larger of min and max - 1, "max +" the smaller of 50 and max + 1. So "min -" lowers min above 1, "min +" raises it below 20, "max -" lowers max above min, "max +" raises it below 50 |
| `SummaryControls.Click` | frontend/src/components/SummaryControls.jsx:52-114 | a click writes the step value into the button's own field only |
| `SummaryControls.StepFixpoints` | frontend/src/components/SummaryControls.jsx:52-114 | each button at its bound leaves the parameters unchanged: min 1 with "-", min 20 with "+", max 50 with "+", max equal to min with "-" |
| `SummaryControls.MaxMinusRaisesMax` | frontend/src/components/SummaryControls.jsx:92 | when min exceeds max, "max -" sets max to min, raising it |
| `SummaryControls.MaxMinusEstablishesOrder` | frontend/src/components/SummaryControls.jsx:92 | after "max -", min ≤ max, whatever held before |
| `SummaryControls.StepsKeepingOrder` | frontend/src/components/SummaryControls.jsx:52-114 | from min ≤ max, these keep the order: "max +" while min ≤ 50, "min -" while max ≥ 1, and "min +" while min < max |
| `SummaryControls.MinPlusBreaksOrder` | frontend/src/components/SummaryControls.jsx:74 | from min = max below 20, "min +" yields min > max |
| `SummaryControls.MinPlusFromDefaults` | frontend/src/components/SummaryControls.jsx:74 | from the default parameters, seven "min +" clicks keep the order and eight break it |
| `SummaryControls.ClicksMinPlus` | frontend/src/components/SummaryControls.jsx:74 | k clicks of "min +" below the ceiling raise min by k and change nothing else |
| `SummaryControls.Clicks` | frontend/src/components/SummaryControls.jsx:52-114 | a click sequence applies its clicks in order: no clicks change nothing, one click is that click |
| `SummaryControls.ClicksAppend` | frontend/src/components/SummaryControls.jsx:52-114 | clicking one sequence and then another is clicking their concatenation |
| `SummaryControls.ClickKeepsRange` | frontend/src/components/SummaryControls.jsx:52-114 | one click keeps min in 1..20, max in 1..50 and the ratio in 1..9 tenths |
| `SummaryControls.ClicksKeepRange` | frontend/src/components/SummaryControls.jsx:52-114 | any sequence of clicks keeps every field in range |
| `SummaryControls.SliderTenths` | frontend/src/components/SummaryControls.jsx:26-31 | the slider's value is always 1..9 tenths, the requested one when it is in range, else the nearest end |
| `SummaryControls.Slide` | frontend/src/components/SummaryControls.jsx:26-31 | the slider writes only the ratio |
| `SummaryControls.SlideKeepsRange` | frontend/src/components/SummaryControls.jsx:26-31 | moving the slider keeps every field in range and does not change whether min ≤ max |
| `FileUpload.BrowseDecision` | frontend/src/components/FileUpload.jsx:8-15 | accepts the first file exactly when it exists and its type is `text/plain`; rejects with the notice exactly when it exists with another type; does nothing exactly when no file came |
| `FileUpload.DropDecision` | frontend/src/components/FileUpload.jsx:22-34 | the same three outcomes for dropped files, with a missing file list also doing nothing |
| `FileUpload.Select` | frontend/src/components/FileUpload.jsx:10-14 | the shared rule on the first file: accept it exactly when it is `text/plain`, reject exactly when it has another type, ignore exactly when there is none |
| `FileUpload.ChannelsAgree` | frontend/src/components/FileUpload.jsx:8-34 | both channels decide every file list by one rule on its first file |
| `FileUpload.OnlyFirstFileCounts` | frontend/src/components/FileUpload.jsx:8-34 | lists with the same first file get the same decision on either channel |
| `Sentences.IsSplitPoint` | tool.py:44 | the pattern matches a whitespace character that follows `.`, `?` or `!`, unless the text before it ends like `e.g.` (word, dot, word, one character other than a newline) or like `Mr.` (capital, small letter, dot) |
| `Sentences.SplitPointExamples` | tool.py:44 | the pattern matches the space after "It is." and "Why?", but not after "Mr." or "e.g.", and there is no cut at a character that is not whitespace |
| `Sentences.SplitFrom` | tool.py:44 | `re.split` always yields at least one piece |
| `Sentences.SplitFromFirstCut` | tool.py:44 | the current piece runs up to the first split point, which is dropped, and splitting resumes after it |
| `Sentences.SplitFromNoCut` | tool.py:44 | without a later split point the rest of the text is a single piece |
| `Sentences.SplitExample` | tool.py:44 | "It is. Yes" splits into "It is." and "Yes" |
| `Sentences.SeparatorsFrom` | tool.py:44 | every character the split consumes is whitespace |
| `Sentences.SplitRejoinFrom` | tool.py:44 | from any position, the pieces and the consumed separators reassemble the rest of the text, with one piece more than separators |
| `Sentences.Split` | tool.py:44 | splitting drops nothing but the matched whitespace: there is one piece more than separators, and pieces and separators reassemble the text |
| `Sentences.StripLeft` | tool.py:45 | the result is a suffix of the input, does not start with whitespace, and only whitespace was removed |
| `Sentences.StripRight` | tool.py:45 | the result is a prefix of the input, does not end with whitespace, and only whitespace was removed |
| `Sentences.Strip` | tool.py:45 | the result neither starts nor ends with whitespace; it is empty exactly when the input is all whitespace |
| `Sentences.StripFixed` | tool.py:45 | a string without surrounding whitespace is its own strip |
| `Sentences.StripIdempotent` | tool.py:45 | stripping twice is stripping once |
| `Sentences.CleanCons` | tool.py:45 | a clean sentence passes through the comprehension unchanged |
| `Sentences.Clean` | tool.py:45 | every kept sentence is non-empty and equal to its own strip; no more sentences than pieces |
| `Sentences.CleanAppend` | tool.py:45 | the comprehension works piece by piece and keeps their order: cleaning a concatenation concatenates the cleanings |
| `Sentences.CleanSingle` | tool.py:45 | one piece contributes its strip when that is non-empty and nothing otherwise |
| `Sentences.CleanMembers` | tool.py:45 | every piece that does not strip to nothing has its strip among the sentences, and every sentence is the strip of a piece |
| `Sentences.CleanIdempotent` | tool.py:45 | filtering an already filtered list changes nothing |
| `Sentences.SplitIntoSentences` | tool.py:33-45 | every sentence is non-empty and equal to its own strip; no more sentences than split pieces |
| `Sentences.BlankTextHasNoSentences` | tool.py:44-45 | an all-whitespace text has no sentences |
| `Sentences.NonBlankTextHasSentence` | tool.py:44-45 | a text with a character that is not whitespace has at least one sentence |
| `Sentences.HasSentencesIffNonBlank` | tool.py:44-45 | a text has sentences exactly when it is not all whitespace |
| `Summarizer.RankSentences` | tool.py:92-112 | the ranking is a permutation of `0..n-1`, ordered by descending score, ties going to the higher index |
| `Summarizer.InsertDesc` | tool.py:109 | inserting into a descending list keeps it descending and adds exactly that element |
| `Summarizer.SortDesc` | tool.py:109 | `sorted(..., reverse=True)` is descending and a permutation of its input |
| `Summarizer.DistinctCounts` | tool.py:109-112 | a list without repeats holds each element once in its multiset |
| `Summarizer.CountsDistinct` | tool.py:109-112 | a list whose multiset holds each element at most once has no repeats |
| `Summarizer.PyInt` | tool.py:144 | `int()` truncates toward zero: the floor for non-negative values, the ceiling for negative ones |
| `Summarizer.ScaledAtMost` | tool.py:144 | `int(n * ratio)` for a ratio between 0 and 1 is between 0 and n |
| `Summarizer.NumSentences` | tool.py:144 | with r = `int(n * ratio)`: the count is r when r lies between `min_sentences` and `max_sentences`, `min_sentences` when r is below it, and `max_sentences` when r is above it and the bounds are in order; when `min_sentences` exceeds `max_sentences` it is `min_sentences`. It is always at least `min_sentences`, at most `max_sentences` when the bounds are in order, and at most n when the ratio is in 0..1 and n > `min_sentences` |
| `Summarizer.PrefixTo` | tool.py:147 | Python's `s[:k]` is a prefix of s, of length min(k, len) for k ≥ 0, and len + k (at least 0) for negative k |
| `Summarizer.InsertAsc` | tool.py:147 | inserting into an ascending list keeps it ascending and adds exactly that element |
| `Summarizer.SortAsc` | tool.py:147 | `sorted` is ascending and a permutation of its input |
| `Summarizer.SortDistinct` | tool.py:147 | sorting distinct indices below n gives the same indices, strictly increasing |
| `Summarizer.SelectIndices` | tool.py:147 | the selected indices are exactly those of the top-ranked prefix, as many as it has, below n, and strictly increasing, so text order is kept |
| `Summarizer.Pick` | tool.py:150 | the picked sentences are, position by position, the sentences at the selected indices |
| `Summarizer.JoinSpace` | tool.py:150 | joining nothing gives the empty string; otherwise the result starts with the first part |
| `Summarizer.JoinSpaceRejoins` | tool.py:150 | `" ".join` puts the parts back together with a single space between each two |
| `Summarizer.JoinStripped` | tool.py:150 | clean sentences joined by single spaces give a text without surrounding whitespace, which starts with the first sentence and ends with the last |
| `Summarizer.Selection` | tool.py:141-147 | the kept indices are valid sentence indices and strictly increasing |
| `Summarizer.SelectionCount` | tool.py:131-147 | with n > `min_sentences` and a ratio in 0..1, exactly `num_sentences` sentences are kept when it is not negative; a negative count drops that many from the end of the ranking |
| `Summarizer.SelectionIsTopRanked` | tool.py:141-147 | a sentence is kept exactly when its index is among the first `num_sentences` of the ranking |
| `Summarizer.SummaryOf` | tool.py:147-150 | the joined selection has no surrounding whitespace |
| `Summarizer.Summarize` | tool.py:114-152 | returns the text unchanged when it has at most `min_sentences` sentences; fails exactly when it passes that return with no sentences (a negative `min_sentences`), because the similarity step gets an empty array; otherwise returns the joined selection, which has no surrounding whitespace |
| `Summarizer.SummarizeEmptyText` | tool.py:127-138 | the empty text fails with `min_sentences` = -1 and comes back unchanged with `min_sentences` = 0 |

## Left out

- Network and browser effects are left out: `fetch`, `response.json()`, `window.open`, toasts, `alert` and `console.error`. The awaited outcome is an input of `CompleteSubmit`. The address is a result of `HandleDownload`. The rejection notice is the `Reject` decision.
- An ok response whose body lacks `summary`, `file_path` or `download_name` is not modelled. JavaScript would store `undefined` there. A body that is not JSON is the `TransportFailure` case.
- The service (its Flask endpoint and its parsing of the form fields) is not part of this model. `ParseDownloadUrl` is an independent reader of the address, used to state that no information is lost. It is not the server's code.
- The theme preference (`localStorage`, `matchMedia`, the body class) is browser state unrelated to the workflow.
- Rendering and animation are left out. This includes the summary panel with its clipboard copy, and the navigation bar. The button label of the controls reads an undeclared `loading`, which throws on every render, and `Navbar` is imported by name from a module that only has a default export. Either defect stops the page from rendering as written, so in the client as shipped the modelled handlers cannot be reached; they are modelled as written.
- React's batching of state updates and stale closures are not modelled. Each handler runs on the current state. Submission is two steps with no other interleaving than handlers called between them.
- The typed number inputs (`parseInt`) may produce `NaN`. `HandleParamChange` takes any integer, and `NaN` is not represented.
- The ratio is a whole number of tenths. Its floating-point representation (`parseFloat`, and the decimal string sent in the form) is not modelled.
- `UriEncoding.EncodeURIComponent` is defined on Unicode scalar values. A JavaScript string can hold a lone surrogate, on which `encodeURIComponent` throws `URIError`. That case cannot be written as a Dafny string and is not modelled.
- `Sentences.IsSplitPoint`: `\w` is modelled on ASCII letters, digits and `_`. Python also counts non-ASCII letters and digits. Whitespace follows Python's `str.isspace` in full.
- The BERT tokenizer and model, the embedding loop, cosine similarity and PageRank are floating-point work in foreign libraries. Their result enters as one real score per sentence. NaN scores and float rounding of `n * ratio` are not modelled: the product is exact.
- `Summarizer.Summarize`: the ratio is a real number, so a NaN or infinite `ratio`, on which `int(len(sentences) * ratio)` raises, is not represented; the one failure modelled is the empty embedding array reaching the similarity step.
- Python's `sorted` (Timsort) is modelled by insertion sort. Both give the same list, because the order on distinct (score, index) pairs and on distinct indices is total.
- `save_summary_to_file`, `main` and the model set-up in the constructor are file I/O, argument parsing and timing.

=== FILE: app.dfy ===
/**
 * The submission workflow of the web client: the six state slots of the
 * top-level component and the handlers that write them.
 *
 * The asynchronous submit handler is split at its `await`: `BeginSubmit` runs
 * up to sending the request and returns the request it sends, and
 * `CompleteSubmit` applies the service's answer and then, as the `finally`
 * block does, clears `loading`. The submit button is disabled while no file is
 * held or a request is outstanding, so `BeginSubmit` is only entered with
 * `loading` false.
 */
module App {
  import opened Common
  import opened UriEncoding
  import opened FileUpload
  import opened SummaryControls

  /** The artifact identifiers returned by the service. */
  datatype DownloadInfo = DownloadInfo(filePath: string, downloadName: string)

  /** The multipart request: the file and the parameters as they were when it was built. */
  datatype Request = Request(file: FileHandle, params: SummaryParams)

  /**
   * What the awaited request yields: an ok status with its JSON body, a
   * failure status with its JSON body (whose `error` may be missing), or an
   * exception (no connection, or a body that is not JSON).
   */
  datatype Response =
    | Ok(summary: string, filePath: string, downloadName: string)
    | NotOk(error: Option<string>)
    | TransportFailure

  const NoFileMessage := "Please select a text file"
  const FallbackMessage := "An error occurred during summarization"
  const ConnectMessage := "Failed to connect to the server. Please try again."
  const DownloadPrefix := "http://localhost:5000/api/download/"

  /** `data.error || fallback`: a missing or empty server message gives the fallback text. */
  function ServerErrorMessage(error: Option<string>): (m: string)
    ensures m != ""
    ensures error.Some? && error.value != "" ==> m == error.value
    ensures error.None? || error.value == "" ==> m == FallbackMessage
  {
    if error.Some? && error.value != "" then error.value else FallbackMessage
  }

  /**
   * The address the download handler opens: the download route followed by
   * the two encoded identifiers, whose only `/` is the one between them.
   */
  function DownloadUrl(d: DownloadInfo): (url: string)
    ensures DownloadPrefix <= url
    ensures var cut := |DownloadPrefix| + |EncodeURIComponent(d.filePath)|;
      cut < |url| && url[cut] == '/' &&
      forall i :: |DownloadPrefix| <= i < |url| && url[i] == '/' ==> i == cut
  {
    var a, b := EncodeURIComponent(d.filePath), EncodeURIComponent(d.downloadName);
    OneSlash(DownloadPrefix, a, b);
    DownloadPrefix + a + "/" + b
  }

  /** Between two segments without `/`, the joining `/` is the only one after the prefix. */
  lemma OneSlash(prefix: string, a: string, b: string)
    requires forall i :: 0 <= i < |a| ==> a[i] != '/'
    requires forall i :: 0 <= i < |b| ==> b[i] != '/'
    ensures var url := prefix + a + "/" + b;
      prefix <= url && url[|prefix| + |a|] == '/' &&
      forall i :: |prefix| <= i < |url| && url[i] == '/' ==> i == |prefix| + |a|
  {
    var url := prefix + a + "/" + b;
    forall i | |prefix| <= i < |prefix| + |a| ensures url[i] != '/' {
      assert url[i] == a[i - |prefix|];
    }
    forall i | |prefix| + |a| < i < |url| ensures url[i] != '/' {
      assert url[i] == b[i - |prefix| - |a| - 1];
    }
  }

  /** The position of the first `c` in `s`, if any. */
  function IndexOf(s: string, c: char): (r: Option<nat>)
    ensures r.Some? ==> r.value < |s| && s[r.value] == c
    ensures r.Some? ==> forall j :: 0 <= j < r.value ==> s[j] != c
    ensures r.None? ==> forall j :: 0 <= j < |s| ==> s[j] != c
  {
    if s == [] then None
    else if s[0] == c then Some(0)
    else match IndexOf(s[1..], c)
      case None => None
      case Some(k) => Some(k + 1)
  }

  /**
   * An independent reader of the address: the prefix, then two
   * percent-encoded segments split at the first `/`.
   */
  function ParseDownloadUrl(url: string): Option<DownloadInfo> {
    if |url| >= |DownloadPrefix| && url[..|DownloadPrefix|] == DownloadPrefix then
      ParseDownloadPath(url[|DownloadPrefix|..])
    else None
  }

  /** The two identifiers of the path that follows the prefix. */
  function ParseDownloadPath(path: string): Option<DownloadInfo> {
    match IndexOf(path, '/')
    case None => None
    case Some(k) =>
      match (DecodeURIComponent(path[..k]), DecodeURIComponent(path[k + 1..]))
      case (Some(filePath), Some(downloadName)) => Some(DownloadInfo(filePath, downloadName))
      case _ => None
  }

  /**
   * A path made of two decodable segments joined by `/`, the first free of `/`,
   * is read as those two segments.
   */
  lemma ParseJoinedPath(a: string, b: string, filePath: string, downloadName: string)
    requires forall j :: 0 <= j < |a| ==> a[j] != '/'
    requires DecodeURIComponent(a) == Some(filePath) && DecodeURIComponent(b) == Some(downloadName)
    ensures ParseDownloadPath(a + "/" + b) == Some(DownloadInfo(filePath, downloadName))
  {
    var path := a + "/" + b;
    assert path[|a|] == '/';
    assert forall j :: 0 <= j < |a| ==> path[j] == a[j];
    assert IndexOf(path, '/') == Some(|a|);
    assert path[..|a|] == a && path[|a| + 1..] == b;
  }

  /** An address that starts with the prefix is read by its path. */
  lemma ParsePrefixed(path: string)
    ensures ParseDownloadUrl(DownloadPrefix + path) == ParseDownloadPath(path)
  {
    var url := DownloadPrefix + path;
    assert url[..|DownloadPrefix|] == DownloadPrefix;
    assert url[|DownloadPrefix|..] == path;
  }

  /**
   * No information is lost in the address: the independent reader gives both
   * identifiers back, whatever characters they hold, because neither encoded
   * segment contains a `/` or a space.
   */
  lemma DownloadUrlRoundTrip(d: DownloadInfo)
    ensures ParseDownloadUrl(DownloadUrl(d)) == Some(d)
  {
    var a, b := EncodeURIComponent(d.filePath), EncodeURIComponent(d.downloadName);
    var path := a + "/" + b;
    assert DownloadUrl(d) == DownloadPrefix + path;
    ParsePrefixed(path);
    EncodeRoundTrip(d.filePath);
    EncodeRoundTrip(d.downloadName);
    ParseJoinedPath(a, b, d.filePath, d.downloadName);
  }

  /** Different identifiers give different addresses. */
  lemma DownloadUrlInjective(d: DownloadInfo, e: DownloadInfo)
    requires DownloadUrl(d) == DownloadUrl(e)
    ensures d == e
  {
    DownloadUrlRoundTrip(d);
    DownloadUrlRoundTrip(e);
  }

  /** The top-level component's state. */
  class SummarizerApp {
    var file: Option<FileHandle>
    var summary: string
    var loading: bool
    var error: string
    var downloadInfo: Option<DownloadInfo>
    var summaryParams: SummaryParams

    /**
     * The consistency the handlers keep: a request is outstanding only for a
     * held file and with no summary or error shown; a summary is never shown
     * together with an error and always has download identifiers; before any
     * file is chosen there is no result at all.
     */
    ghost predicate Valid()
      reads this
    {
      (loading ==> file.Some? && summary == "" && error == "") &&
      (summary != "" ==> error == "" && downloadInfo.Some?) &&
      (file.None? ==> summary == "" && downloadInfo.None?)
    }

    /** `disabled={!file || loading}` on the submit button. */
    predicate SubmitDisabled()
      reads this
    {
      file.None? || loading
    }

    /** The initial state: nothing selected, nothing shown, default parameters. */
    constructor ()
      ensures Valid()
      ensures file == None && summary == "" && !loading && error == "" && downloadInfo == None
      ensures summaryParams == DefaultParams
    {
      file := None;
      summary := "";
      loading := false;
      error := "";
      downloadInfo := None;
      summaryParams := DefaultParams;
    }

    /** A file accepted by the upload area replaces the held one and clears every result. */
    method HandleFileChange(selected: FileHandle)
      requires Valid()
      modifies this
      ensures Valid()
      ensures file == Some(selected) && summary == "" && error == "" && downloadInfo == None
      ensures loading == old(loading) && summaryParams == old(summaryParams)
    {
      file := Some(selected);
      summary := "";
      error := "";
      downloadInfo := None;
    }

    /** Sets one parameter to the given value, unclamped; nothing else changes. */
    method HandleParamChange(name: ParamName, value: int)
      requires Valid()
      modifies this
      ensures Valid()
      ensures summaryParams == old(summaryParams).With(name, value)
      ensures summaryParams.Get(name) == value
      ensures forall other: ParamName :: other != name ==> summaryParams.Get(other) == old(summaryParams.Get(other))
      ensures file == old(file) && summary == old(summary) && loading == old(loading)
      ensures error == old(error) && downloadInfo == old(downloadInfo)
    {
      summaryParams := summaryParams.With(name, value);
    }

    /**
     * The submit handler up to its `await`. Without a file it only shows the
     * "select a file" error and sends nothing; with one it marks the request
     * outstanding, clears the error and the summary, and sends the file with a
     * snapshot of the parameters. A request is sent exactly when the submit
     * button was enabled.
     */
    method BeginSubmit() returns (request: Option<Request>)
      requires Valid() && !loading
      modifies this
      ensures Valid()
      ensures request.Some? <==> !old(SubmitDisabled())
      ensures old(file).None? ==>
        request == None && error == NoFileMessage && !loading && summary == old(summary)
      ensures old(file).Some? ==>
        request == Some(Request(old(file).value, old(summaryParams))) &&
        loading && error == "" && summary == ""
      ensures file == old(file) && summaryParams == old(summaryParams)
      ensures downloadInfo == old(downloadInfo)
    {
      if file.None? {
        error := NoFileMessage;
        return None;
      }
      loading := true;
      error := "";
      summary := "";
      request := Some(Request(file.value, summaryParams));
    }

    /**
     * The submit handler after its `await`: an ok answer shows the summary and
     * stores the download identifiers; a failure status shows the server's
     * message or the fallback; an exception shows the connection message. The
     * `finally` block then clears `loading`, so the submit button is enabled
     * again on every path.
     */
    method CompleteSubmit(response: Response)
      requires Valid() && loading
      modifies this
      ensures Valid()
      ensures !loading && !SubmitDisabled()
      ensures response.Ok? ==>
        summary == response.summary && error == "" &&
        downloadInfo == Some(DownloadInfo(response.filePath, response.downloadName))
      ensures response.NotOk? ==>
        error == ServerErrorMessage(response.error) && summary == "" && downloadInfo == old(downloadInfo)
      ensures response.TransportFailure? ==>
        error == ConnectMessage && summary == "" && downloadInfo == old(downloadInfo)
      ensures !(summary != "" && error != "")
      ensures file == old(file) && summaryParams == old(summaryParams)
    {
      match response {
        case Ok(text, filePath, downloadName) =>
          summary := text;
          downloadInfo := Some(DownloadInfo(filePath, downloadName));
        case NotOk(message) =>
          error := ServerErrorMessage(message);
        case TransportFailure =>
          error := ConnectMessage;
      }
      loading := false;
    }

    /**
     * The download handler: nothing without identifiers, otherwise the address
     * built from the two percent-encoded identifiers, from which both can be
     * read back.
     */
    method HandleDownload() returns (url: Option<string>)
      ensures url.None? <==> downloadInfo.None?
      ensures url.Some? ==> url.value == DownloadUrl(downloadInfo.value)
      ensures url.Some? ==> ParseDownloadUrl(url.value) == downloadInfo
    {
      if downloadInfo.None? {
        return None;
      }
      url := Some(DownloadUrl(downloadInfo.value));
      DownloadUrlRoundTrip(downloadInfo.value);
    }
  }

  /**
   * A session: choose a file, submit with the default parameters, receive a
   * summary, download it; then submit again and lose the connection.
   */
  method SessionScenario(doc: FileHandle)
  {
    var app := new SummarizerApp();
    assert app.SubmitDisabled();
    app.HandleFileChange(doc);
    assert !app.SubmitDisabled();
    var request := app.BeginSubmit();
    assert request == Some(Request(doc, SummaryParams(3, 3, 10)));
    assert app.SubmitDisabled();
    app.HandleParamChange(Min, 5);
    assert request.value.params.min == 3;
    app.CompleteSubmit(Ok("S1. S2.", "abc", "doc_summary.txt"));
    assert app.summary == "S1. S2." && app.error == "" && !app.loading;
    var url := app.HandleDownload();
    assert url.Some? && ParseDownloadUrl(url.value) == Some(DownloadInfo("abc", "doc_summary.txt"));
    request := app.BeginSubmit();
    assert request == Some(Request(doc, SummaryParams(3, 5, 10)));
    app.CompleteSubmit(TransportFailure);
    assert app.error == ConnectMessage && app.summary == "" && !app.loading;
    assert app.downloadInfo == Some(DownloadInfo("abc", "doc_summary.txt"));
  }

  /**
   * A file chosen while a request is outstanding does not cancel it: the
   * answer for the earlier file is shown beside the later one.
   */
  method ReselectWhileLoading(first: FileHandle, second: FileHandle)
  {
    var app := new SummarizerApp();
    app.HandleFileChange(first);
    var request := app.BeginSubmit();
    app.HandleFileChange(second);
    assert app.loading;
    app.CompleteSubmit(Ok("from the first file", "p", "n"));
    assert request.value.file == first && app.file == Some(second);
    assert app.summary == "from the first file";
  }
}

=== FILE: common.dfy ===
/** Small types shared by the modules of this model. */
module Common {

  /** A value that may be absent (JavaScript's `null`/`undefined`, Python's `None`). */
  datatype Option<+T> = None | Some(value: T)

  /** An octet. */
  type Byte = b: int | 0 <= b < 256
}

=== FILE: file_upload.dfy ===
/**
 * The file-acceptance rule of the upload area. A file reaches the client
 * through two channels, the browse dialog and drag-and-drop; each looks at the
 * first file only and accepts it exactly when its declared MIME type is
 * `text/plain`, shows a notice for any other type, and does nothing when no
 * file came.
 */
module FileUpload {
  import opened Common

  /** A browser `File`: its name, size, declared MIME type and bytes. */
  datatype FileHandle = FileHandle(name: string, size: nat, mimeType: string, content: seq<Byte>)

  const PlainText := "text/plain"

  /**
   * What a channel does with a selection: hand the file to the client's
   * change callback, show the "Please upload a .txt file" notice, or nothing.
   */
  datatype Decision = Accept(file: FileHandle) | Reject | Ignore

  /** The browse channel: `e.target.files[0]`, undefined when the list is empty. */
  function BrowseDecision(files: seq<FileHandle>): (d: Decision)
    ensures d.Accept? <==> |files| > 0 && files[0].mimeType == PlainText
    ensures d.Accept? ==> d.file == files[0]
    ensures d.Reject? <==> |files| > 0 && files[0].mimeType != PlainText
    ensures d.Ignore? <==> files == []
  {
    var file: Option<FileHandle> := if |files| > 0 then Some(files[0]) else None;
    if file.Some? && file.value.mimeType == PlainText then Accept(file.value)
    else if file.Some? then Reject
    else Ignore
  }

  /**
   * The drop channel: `e.dataTransfer.files`, which the handler also tests for
   * being absent, then its first element.
   */
  function DropDecision(files: Option<seq<FileHandle>>): (d: Decision)
    ensures d.Accept? <==> files.Some? && |files.value| > 0 && files.value[0].mimeType == PlainText
    ensures d.Accept? ==> d.file == files.value[0]
    ensures d.Reject? <==> files.Some? && |files.value| > 0 && files.value[0].mimeType != PlainText
    ensures d.Ignore? <==> files.None? || files.value == []
  {
    if files.Some? && |files.value| > 0 then
      var file := files.value[0];
      if file.mimeType == PlainText then Accept(file) else Reject
    else Ignore
  }

  /** The one acceptance rule both channels implement. */
  function Select(first: Option<FileHandle>): (d: Decision)
    ensures d.Accept? <==> first.Some? && first.value.mimeType == PlainText
    ensures d.Accept? ==> d.file == first.value
    ensures d.Reject? <==> first.Some? && first.value.mimeType != PlainText
    ensures d.Ignore? <==> first.None?
  {
    match first
    case None => Ignore
    case Some(f) => if f.mimeType == PlainText then Accept(f) else Reject
  }

  /** The first file of a list, if any. */
  function First(files: seq<FileHandle>): Option<FileHandle> {
    if files == [] then None else Some(files[0])
  }

  /** Both channels decide by the same rule on the first file, so they agree on every file list. */
  lemma ChannelsAgree(files: seq<FileHandle>)
    ensures BrowseDecision(files) == Select(First(files))
    ensures DropDecision(Some(files)) == Select(First(files))
    ensures DropDecision(None) == Ignore
  {
  }

  /** Only the first file matters: lists with the same first file get the same decision. */
  lemma OnlyFirstFileCounts(files: seq<FileHandle>, others: seq<FileHandle>)
    requires |files| > 0 && |others| > 0 && files[0] == others[0]
    ensures BrowseDecision(files) == BrowseDecision(others)
    ensures DropDecision(Some(files)) == DropDecision(Some(others))
  {
  }
}

=== FILE: sentences.dfy ===
/**
 * The sentence splitter of the extractive summariser: the text is cut at
 * every whitespace character that ends a sentence (the regular expression
 * `(?<!\w\.\w.)(?<![A-Z][a-z]\.)(?<=\.|\?|\!)\s`), each piece is stripped of
 * surrounding whitespace, and empty pieces are dropped.
 */
module Sentences {

  /**
   * Python's whitespace (`str.isspace`, and `\s` in a `str` pattern):
   * tab to carriage return, the four information separators, space, NEL,
   * no-break space and the Unicode space separators.
   */
  predicate IsSpace(c: char) {
    var n := c as int;
    n == 0x20 || (0x09 <= n <= 0x0D) || (0x1C <= n <= 0x1F) || n == 0x85 || n == 0xA0 ||
    n == 0x1680 || (0x2000 <= n <= 0x200A) || n == 0x2028 || n == 0x2029 || n == 0x202F ||
    n == 0x205F || n == 0x3000
  }

  /** `\w`, on ASCII: letters, digits and the underscore. */
  predicate IsWordChar(c: char) {
    ('A' <= c <= 'Z') || ('a' <= c <= 'z') || ('0' <= c <= '9') || c == '_'
  }

  /** A sentence-ending punctuation mark: `.`, `?` or `!`. */
  predicate IsTerminator(c: char) {
    c == '.' || c == '?' || c == '!'
  }

  /**
   * Whether the pattern matches the character at `i`: it is whitespace, it
   * follows a terminator, and the text before it ends neither like `e.g.`
   * (word, dot, word, any character but a newline) nor like `Mr.`
   * (capital, small letter, dot).
   */
  predicate IsSplitPoint(text: string, i: nat)
    requires i < |text|
  {
    IsSpace(text[i]) &&
    i >= 1 && IsTerminator(text[i - 1]) &&
    !(i >= 4 && IsWordChar(text[i - 4]) && text[i - 3] == '.' && IsWordChar(text[i - 2]) && text[i - 1] != '\n') &&
    !(i >= 3 && 'A' <= text[i - 3] <= 'Z' && 'a' <= text[i - 2] <= 'z' && text[i - 1] == '.')
  }

  /**
   * `re.split` from position `i` on, the current piece having started at
   * `start`: each match ends the current piece and is itself dropped.
   */
  function SplitFrom(text: string, start: nat, i: nat): (pieces: seq<string>)
    requires start <= i <= |text|
    ensures |pieces| >= 1
    decreases |text| - i
  {
    if i == |text| then [text[start..]]
    else if IsSplitPoint(text, i) then [text[start..i]] + SplitFrom(text, i + 1, i + 1)
    else SplitFrom(text, start, i + 1)
  }

  /** The whitespace characters `re.split` consumes from position `i` on. */
  function SeparatorsFrom(text: string, i: nat): (seps: string)
    requires i <= |text|
    ensures forall k :: 0 <= k < |seps| ==> IsSpace(seps[k])
    decreases |text| - i
  {
    if i == |text| then []
    else if IsSplitPoint(text, i) then [text[i]] + SeparatorsFrom(text, i + 1)
    else SeparatorsFrom(text, i + 1)
  }


  /** The pieces put back together, each separator between two pieces. */
  function Rejoin(pieces: seq<string>, seps: string): string
    requires |pieces| == |seps| + 1
  {
    if seps == [] then pieces[0] else pieces[0] + [seps[0]] + Rejoin(pieces[1..], seps[1..])
  }

  /**
   * Splitting loses nothing but the matched whitespace: the pieces and the
   * separators put back together give the text.
   */
  lemma {:induction false} SplitRejoinFrom(text: string, start: nat, i: nat)
    requires start <= i <= |text|
    ensures |SplitFrom(text, start, i)| == |SeparatorsFrom(text, i)| + 1
    ensures Rejoin(SplitFrom(text, start, i), SeparatorsFrom(text, i)) == text[start..]
    decreases |text| - i
  {
    if i == |text| {
    } else if IsSplitPoint(text, i) {
      SplitRejoinFrom(text, i + 1, i + 1);
      assert text[start..] == text[start..i] + [text[i]] + text[i + 1..];
    } else {
      SplitRejoinFrom(text, start, i + 1);
    }
  }

  /**
   * Where `re.split` cuts: the current piece runs up to the first split point
   * at or after `i`, and the splitting resumes after it.
   */
  lemma {:induction false} SplitFromFirstCut(text: string, start: nat, i: nat, j: nat)
    requires start <= i <= j < |text| && IsSplitPoint(text, j)
    requires forall m :: i <= m < j ==> !IsSplitPoint(text, m)
    ensures SplitFrom(text, start, i) == [text[start..j]] + SplitFrom(text, j + 1, j + 1)
    decreases j - i
  {
    if i < j {
      SplitFromFirstCut(text, start, i + 1, j);
    }
  }

  /** Without a split point at or after `i`, the rest of the text is one piece. */
  lemma {:induction false} SplitFromNoCut(text: string, start: nat, i: nat)
    requires start <= i <= |text|
    requires forall m :: i <= m < |text| ==> !IsSplitPoint(text, m)
    ensures SplitFrom(text, start, i) == [text[start..]]
    decreases |text| - i
  {
    if i < |text| {
      SplitFromNoCut(text, start, i + 1);
    }
  }

  /** The split point at the end of a sentence, and the two exceptions. */
  lemma SplitPointExamples()
    ensures IsSplitPoint("It is. Yes", 6)
    ensures IsSplitPoint("Why? No", 4)
    ensures !IsSplitPoint("Mr. Smith", 3)
    ensures !IsSplitPoint("e.g. this", 4)
    ensures !IsSplitPoint("It is.Yes", 5)
  {
  }

  /** The pieces of a two-sentence text. */
  lemma SplitExample()
    ensures Split("It is. Yes") == ["It is.", "Yes"]
  {
    var text := "It is. Yes";
    assert forall m :: 0 <= m < 6 ==> !IsSplitPoint(text, m);
    SplitFromFirstCut(text, 0, 0, 6);
    assert forall m :: 7 <= m < |text| ==> !IsSplitPoint(text, m);
    SplitFromNoCut(text, 7, 7);
    assert text[0..6] == "It is." && text[7..] == "Yes";
  }

  /**
   * The pieces of the whole text, which lose nothing but the matched
   * whitespace: with the separators between them they give the text back.
   */
  function Split(text: string): (pieces: seq<string>)
    ensures |pieces| == |SeparatorsFrom(text, 0)| + 1
    ensures Rejoin(pieces, SeparatorsFrom(text, 0)) == text
  {
    SplitRejoinFrom(text, 0, 0);
    assert text[0..] == text;
    SplitFrom(text, 0, 0)
  }

  /** `s.lstrip()`: the text after the leading whitespace. */
  function StripLeft(s: string): (r: string)
    ensures |r| <= |s| && r == s[|s| - |r|..]
    ensures r == [] || !IsSpace(r[0])
    ensures forall k :: 0 <= k < |s| - |r| ==> IsSpace(s[k])
  {
    if s != [] && IsSpace(s[0]) then StripLeft(s[1..]) else s
  }

  /** `s.rstrip()`: the text before the trailing whitespace. */
  function StripRight(s: string): (r: string)
    ensures |r| <= |s| && r == s[..|r|]
    ensures r == [] || !IsSpace(r[|r| - 1])
    ensures forall k :: |r| <= k < |s| ==> IsSpace(s[k])
  {
    if s != [] && IsSpace(s[|s| - 1]) then StripRight(s[..|s| - 1]) else s
  }

  /**
   * `s.strip()`: the part of `s` between its leading and trailing whitespace;
   * empty exactly when `s` is all whitespace.
   */
  function Strip(s: string): (r: string)
    ensures r == [] || (!IsSpace(r[0]) && !IsSpace(r[|r| - 1]))
    ensures r == [] <==> forall k :: 0 <= k < |s| ==> IsSpace(s[k])
    ensures |r| <= |s|
  {
    var left := StripLeft(s);
    StripRight(left)
  }

  /** Stripping a string that neither starts nor ends with whitespace changes nothing. */
  lemma StripFixed(s: string)
    requires s == [] || (!IsSpace(s[0]) && !IsSpace(s[|s| - 1]))
    ensures Strip(s) == s
  {
  }

  /** Stripping twice is stripping once. */
  lemma StripIdempotent(s: string)
    ensures Strip(Strip(s)) == Strip(s)
  {
    StripFixed(Strip(s));
  }

  /** `[p.strip() for p in pieces if p.strip()]`. */
  function Clean(pieces: seq<string>): (sentences: seq<string>)
    ensures |sentences| <= |pieces|
    ensures forall k :: 0 <= k < |sentences| ==> sentences[k] != [] && Strip(sentences[k]) == sentences[k]
  {
    if pieces == [] then []
    else
      var first := Strip(pieces[0]);
      StripIdempotent(pieces[0]);
      (if first != [] then [first] else []) + Clean(pieces[1..])
  }

  /** A sentence that is already clean survives cleaning as it is. */
  lemma CleanCons(x: string, rest: seq<string>)
    requires x != [] && Strip(x) == x
    ensures Clean([x] + rest) == [x] + Clean(rest)
  {
    assert ([x] + rest)[0] == x && ([x] + rest)[1..] == rest;
  }

  /** The first piece contributes its strip, if that is not empty, ahead of the rest. */
  lemma CleanHead(x: string, rest: seq<string>)
    ensures Clean([x] + rest) == (if Strip(x) != [] then [Strip(x)] else []) + Clean(rest)
  {
    assert ([x] + rest)[0] == x && ([x] + rest)[1..] == rest;
  }

  /** Cleaning works piece by piece: cleaning a concatenation concatenates the cleanings. */
  lemma {:induction false} CleanAppend(a: seq<string>, b: seq<string>)
    ensures Clean(a + b) == Clean(a) + Clean(b)
  {
    if a == [] {
      assert a + b == b;
    } else {
      var x, tail := a[0], a[1..];
      assert a == [x] + tail;
      assert a + b == [x] + (tail + b);
      CleanHead(x, tail + b);
      CleanHead(x, tail);
      CleanAppend(tail, b);
      Regroup(Clean(a + b), if Strip(x) != [] then [Strip(x)] else [], Clean(tail), Clean(b), Clean(a));
    }
  }

  /** `l == h + (u + v)` and `r == h + u` give `l == r + v`. */
  lemma Regroup<T>(l: seq<T>, h: seq<T>, u: seq<T>, v: seq<T>, r: seq<T>)
    requires l == h + (u + v) && r == h + u
    ensures l == r + v
  {
    assert h + (u + v) == (h + u) + v;
  }

  /** One piece contributes its strip when that is not empty, and nothing otherwise. */
  lemma CleanSingle(p: string)
    ensures Clean([p]) == if Strip(p) != [] then [Strip(p)] else []
  {
    assert [p][1..] == [];
  }

  /**
   * The sentences are exactly the non-empty strips of the pieces: each
   * non-blank piece's strip is kept, and every sentence is the strip of a piece.
   */
  lemma {:induction false} CleanMembers(pieces: seq<string>)
    ensures forall p :: p in pieces && Strip(p) != [] ==> Strip(p) in Clean(pieces)
    ensures forall s :: s in Clean(pieces) ==> exists p :: p in pieces && Strip(p) == s
  {
    if pieces != [] {
      CleanMembers(pieces[1..]);
      assert pieces == [pieces[0]] + pieces[1..];
      CleanAppend([pieces[0]], pieces[1..]);
      CleanSingle(pieces[0]);
      forall s | s in Clean(pieces) ensures exists p :: p in pieces && Strip(p) == s {
        if s in Clean(pieces[1..]) {
          var p :| p in pieces[1..] && Strip(p) == s;
          assert p in pieces;
        } else {
          assert Strip(pieces[0]) == s;
        }
      }
    }
  }

  /** Cleaning a cleaned list changes nothing. */
  lemma {:induction false} CleanIdempotent(pieces: seq<string>)
    ensures Clean(Clean(pieces)) == Clean(pieces)
  {
    if pieces != [] {
      CleanIdempotent(pieces[1..]);
      var first := Strip(pieces[0]);
      var rest := Clean(pieces[1..]);
      if first != [] {
        StripIdempotent(pieces[0]);
        assert Clean(pieces) == [first] + rest;
        CleanCons(first, rest);
      } else {
        assert Clean(pieces) == rest;
      }
    }
  }

  /**
   * `_split_into_sentences`: every sentence is non-empty and has no
   * surrounding whitespace, and there are no more sentences than pieces.
   */
  function SplitIntoSentences(text: string): (sentences: seq<string>)
    ensures |sentences| <= |Split(text)|
    ensures forall k :: 0 <= k < |sentences| ==> sentences[k] != [] && Strip(sentences[k]) == sentences[k]
  {
    Clean(Split(text))
  }

  /** A text that is all whitespace has no sentences. */
  lemma {:induction false} BlankTextHasNoSentences(text: string)
    requires forall k :: 0 <= k < |text| ==> IsSpace(text[k])
    ensures SplitIntoSentences(text) == []
  {
    BlankPieces(text, 0, 0);
  }

  /** A text with a character that is not whitespace has at least one sentence. */
  lemma NonBlankTextHasSentence(text: string, k: nat)
    requires k < |text| && !IsSpace(text[k])
    ensures SplitIntoSentences(text) != []
  {
    var j, m := PieceHolding(text, 0, 0, k);
    var piece := Split(text)[j];
    assert !IsSpace(piece[m]);
    CleanMembers(Split(text));
    assert Strip(piece) in SplitIntoSentences(text);
  }

  /**
   * The character at `k`, not being whitespace, is never consumed by the
   * split: it is the `m`-th character of the `j`-th piece.
   */
  lemma {:induction false} PieceHolding(text: string, start: nat, i: nat, k: nat) returns (j: nat, m: nat)
    requires start <= i <= |text| && start <= k < |text| && !IsSpace(text[k])
    ensures j < |SplitFrom(text, start, i)| && m < |SplitFrom(text, start, i)[j]|
    ensures SplitFrom(text, start, i)[j][m] == text[k]
    decreases |text| - i
  {
    if i == |text| {
      j, m := 0, k - start;
    } else if IsSplitPoint(text, i) {
      if k < i {
        j, m := 0, k - start;
      } else {
        var j', m' := PieceHolding(text, i + 1, i + 1, k);
        j, m := j' + 1, m';
      }
    } else {
      j, m := PieceHolding(text, start, i + 1, k);
    }
  }

  /** A text has a sentence exactly when it holds a character that is not whitespace. */
  lemma HasSentencesIffNonBlank(text: string)
    ensures SplitIntoSentences(text) != [] <==> exists k :: 0 <= k < |text| && !IsSpace(text[k])
  {
    if k :| 0 <= k < |text| && !IsSpace(text[k]) {
      NonBlankTextHasSentence(text, k);
    } else {
      BlankTextHasNoSentences(text);
    }
  }

  /** A blank text has no split point, and its one piece strips to nothing. */
  lemma {:induction false} BlankPieces(text: string, start: nat, i: nat)
    requires start <= i <= |text|
    requires forall k :: 0 <= k < |text| ==> IsSpace(text[k])
    ensures Clean(SplitFrom(text, start, i)) == []
    decreases |text| - i
  {
    if i == |text| {
      assert Strip(text[start..]) == [];
    } else {
      assert !IsSplitPoint(text, i);
      BlankPieces(text, start, i + 1);
    }
  }
}

=== FILE: summarizer.dfy ===
/**
 * The deterministic part of the extractive summariser: ranking sentence
 * indices by their scores, the number of sentences to keep, the selection of
 * the top-ranked indices in text order, and the joined summary.
 *
 * The scores come from PageRank over BERT sentence embeddings; they are an
 * input here, one real number per sentence.
 */
module Summarizer {
  import opened Common
  import opened Sentences

  // ---------------------------------------------------------------- permutations

  /** No value occurs twice. */
  predicate Distinct(s: seq<int>) {
    forall i, j :: 0 <= i < j < |s| ==> s[i] != s[j]
  }

  /** `r` lists each of `0, ..., n - 1` exactly once: n distinct values below n. */
  predicate IsPermutation(r: seq<int>, n: nat) {
    |r| == n && (forall i :: 0 <= i < |r| ==> 0 <= r[i] < n) && Distinct(r)
  }

  /** A sequence with no repeated element has each element once in its multiset. */
  lemma {:induction false} DistinctCounts<T>(s: seq<T>)
    requires forall i, j :: 0 <= i < j < |s| ==> s[i] != s[j]
    ensures forall x :: multiset(s)[x] <= 1
  {
    if s != [] {
      var init := s[..|s| - 1];
      DistinctCounts(init);
      assert s == init + [s[|s| - 1]];
      assert s[|s| - 1] !in init;
    }
  }

  /** A sequence in which every element occurs at most once has no repeated element. */
  lemma CountsDistinct<T>(s: seq<T>)
    requires forall x :: multiset(s)[x] <= 1
    ensures forall i, j :: 0 <= i < j < |s| ==> s[i] != s[j]
  {
    forall i, j | 0 <= i < j < |s|
      ensures s[i] != s[j]
    {
      assert s == s[..j] + s[j..];
      assert s[i] in multiset(s[..j]) && s[j] in multiset(s[j..]);
      assert multiset(s)[s[j]] == multiset(s[..j])[s[j]] + multiset(s[j..])[s[j]];
    }
  }

  // ---------------------------------------------------------------- ranking

  /** A score paired with its sentence index, compared as Python compares tuples. */
  type Scored = (real, int)

  /** `a > b` on pairs: by score, then by index. */
  predicate Above(a: Scored, b: Scored) {
    a.0 > b.0 || (a.0 == b.0 && a.1 > b.1)
  }

  /** In descending order: no element is above an earlier one. */
  predicate SortedDesc(s: seq<Scored>) {
    forall i, j :: 0 <= i < j < |s| ==> !Above(s[j], s[i])
  }

  /** Inserts `x` into a descending sequence. */
  function InsertDesc(x: Scored, s: seq<Scored>): (r: seq<Scored>)
    requires SortedDesc(s)
    ensures SortedDesc(r)
    ensures forall y :: y in r <==> y == x || y in s
    ensures multiset(r) == multiset(s) + multiset{x}
  {
    if s == [] then [x]
    else if !Above(s[0], x) then [x] + s
    else
      var rest := InsertDesc(x, s[1..]);
      InsertDescStep(x, s, rest);
      [s[0]] + rest
  }

  /** The recursive case of `InsertDesc`: `s[0]` stays in front of the insertion into `s[1..]`. */
  lemma InsertDescStep(x: Scored, s: seq<Scored>, rest: seq<Scored>)
    requires SortedDesc(s) && s != [] && Above(s[0], x)
    requires SortedDesc(rest) && multiset(rest) == multiset(s[1..]) + multiset{x}
    ensures SortedDesc([s[0]] + rest)
    ensures forall y :: y in [s[0]] + rest <==> y == x || y in s
    ensures multiset([s[0]] + rest) == multiset(s) + multiset{x}
  {
    assert s == [s[0]] + s[1..];
    forall y | y in rest ensures !Above(y, s[0]) {
      assert y in multiset(rest);
      if y != x {
        assert y in multiset(s[1..]);
        var k :| 0 <= k < |s[1..]| && s[1..][k] == y;
        assert s[k + 1] == y;
      }
    }
    forall y ensures y in [s[0]] + rest <==> y == x || y in s {
      assert y in rest <==> y in multiset(rest);
      assert y in s[1..] <==> y in multiset(s[1..]);
    }
    ConsSortedDesc(s[0], rest);
  }

  /** A head that no element of a descending list is above keeps the list descending. */
  lemma ConsSortedDesc(h: Scored, rest: seq<Scored>)
    requires SortedDesc(rest) && forall y :: y in rest ==> !Above(y, h)
    ensures SortedDesc([h] + rest)
  {
    var t := [h] + rest;
    forall i, j | 0 <= i < j < |t| ensures !Above(t[j], t[i]) {
      assert t[j] == rest[j - 1] && rest[j - 1] in rest;
      if i > 0 { assert t[i] == rest[i - 1]; }
    }
  }

  /** `sorted(pairs, reverse=True)`. */
  function SortDesc(s: seq<Scored>): (r: seq<Scored>)
    ensures SortedDesc(r)
    ensures multiset(r) == multiset(s)
  {
    if s == [] then []
    else
      assert s == [s[0]] + s[1..];
      InsertDesc(s[0], SortDesc(s[1..]))
  }

  /** `(scores[i], i) for i in range(len(scores))`. */
  function ScoredIndices(scores: seq<real>): (ps: seq<Scored>)
    ensures |ps| == |scores| && forall i :: 0 <= i < |ps| ==> ps[i] == (scores[i], i)
  {
    seq(|scores|, i requires 0 <= i < |scores| => (scores[i], i))
  }

  /** A pair whose score is the score of the sentence it names. */
  predicate WellScored(p: Scored, scores: seq<real>) {
    0 <= p.1 < |scores| && p.0 == scores[p.1]
  }

  /**
   * `_rank_sentences`: the sentence indices from the highest score to the
   * lowest, ties going to the higher index. The result is a permutation of
   * the indices.
   */
  function RankSentences(scores: seq<real>): (ranked: seq<int>)
    ensures IsPermutation(ranked, |scores|)
    ensures forall i, j :: 0 <= i < j < |ranked| ==>
      scores[ranked[i]] > scores[ranked[j]] ||
      (scores[ranked[i]] == scores[ranked[j]] && ranked[i] > ranked[j])
  {
    var sorted := SortDesc(ScoredIndices(scores));
    SortedPairs(scores);
    var ranked := seq(|sorted|, i requires 0 <= i < |sorted| => sorted[i].1);
    RankedIndices(scores, sorted, ranked);
    ranked
  }

  /** The indices of distinct, well-scored pairs in descending order form the ranking. */
  lemma RankedIndices(scores: seq<real>, sorted: seq<Scored>, ranked: seq<int>)
    requires |sorted| == |scores| && SortedDesc(sorted)
    requires forall i :: 0 <= i < |sorted| ==> WellScored(sorted[i], scores)
    requires forall i, j :: 0 <= i < j < |sorted| ==> sorted[i] != sorted[j]
    requires |ranked| == |sorted| && forall i :: 0 <= i < |ranked| ==> ranked[i] == sorted[i].1
    ensures IsPermutation(ranked, |scores|)
    ensures forall i, j :: 0 <= i < j < |ranked| ==>
      scores[ranked[i]] > scores[ranked[j]] ||
      (scores[ranked[i]] == scores[ranked[j]] && ranked[i] > ranked[j])
  {
    forall i, j | 0 <= i < j < |ranked|
      ensures ranked[i] != ranked[j]
      ensures scores[ranked[i]] > scores[ranked[j]] ||
        (scores[ranked[i]] == scores[ranked[j]] && ranked[i] > ranked[j])
    {
      assert WellScored(sorted[i], scores) && WellScored(sorted[j], scores);
      assert !Above(sorted[j], sorted[i]);
    }
  }

  /** The sorted pairs are the scored indices, each once, in descending order. */
  lemma SortedPairs(scores: seq<real>)
    ensures |SortDesc(ScoredIndices(scores))| == |scores|
    ensures forall i :: 0 <= i < |SortDesc(ScoredIndices(scores))| ==>
      WellScored(SortDesc(ScoredIndices(scores))[i], scores)
    ensures forall i, j :: 0 <= i < j < |SortDesc(ScoredIndices(scores))| ==>
      SortDesc(ScoredIndices(scores))[i] != SortDesc(ScoredIndices(scores))[j]
  {
    var ps := ScoredIndices(scores);
    var sorted := SortDesc(ps);
    assert |sorted| == |multiset(sorted)| == |multiset(ps)| == |ps|;
    DistinctCounts(ps);
    CountsDistinct(sorted);
    forall i | 0 <= i < |sorted| ensures WellScored(sorted[i], scores) {
      assert sorted[i] in multiset(ps);
    }
  }

  // ---------------------------------------------------------------- how many sentences

  /** Python's `int()` on a number: truncation toward zero. */
  function PyInt(x: real): (n: int)
    ensures x >= 0.0 ==> n as real <= x < n as real + 1.0
    ensures x < 0.0 ==> n as real - 1.0 < x <= n as real
  {
    if x >= 0.0 then x.Floor else -((-x).Floor)
  }

  /** `int(n * ratio)` for a fraction `ratio` lies between 0 and n. */
  lemma ScaledAtMost(n: nat, ratio: real)
    requires 0.0 <= ratio <= 1.0
    ensures 0 <= PyInt(n as real * ratio) <= n
  {
    var x := n as real * ratio;
    assert x <= n as real * 1.0;
    var m := PyInt(x);
    assert m as real <= n as real;
  }

  /**
   * `max(min_sentences, min(max_sentences, int(n * ratio)))`: never below the
   * minimum, not above the maximum when the bounds are in order, and not more
   * than the sentences there are when the ratio is a fraction and there are
   * more sentences than the minimum.
   */
  function NumSentences(n: nat, ratio: real, minSentences: int, maxSentences: int): (k: int)
    ensures k >= minSentences
    ensures minSentences <= maxSentences ==> k <= maxSentences
    ensures 0.0 <= ratio <= 1.0 && n > minSentences ==> k <= n
    ensures var r := PyInt(n as real * ratio);
      minSentences <= r <= maxSentences ==> k == r
    ensures PyInt(n as real * ratio) < minSentences ==> k == minSentences
    ensures minSentences <= maxSentences < PyInt(n as real * ratio) ==> k == maxSentences
    ensures minSentences > maxSentences ==> k == minSentences
  {
    var byRatio := PyInt(n as real * ratio);
    assert 0.0 <= ratio <= 1.0 ==> byRatio <= n by {
      if 0.0 <= ratio <= 1.0 { ScaledAtMost(n, ratio); }
    }
    var capped := if maxSentences < byRatio then maxSentences else byRatio;
    if minSentences > capped then minSentences else capped
  }

  // ---------------------------------------------------------------- which sentences

  /** Python's `s[:k]`: the first k elements, or all but the last -k when k is negative. */
  function PrefixTo(s: seq<int>, k: int): (r: seq<int>)
    ensures |r| <= |s| && r == s[..|r|]
    ensures k >= 0 ==> |r| == (if k < |s| then k else |s|)
    ensures k < 0 ==> |r| == (if |s| + k > 0 then |s| + k else 0)
  {
    if k >= 0 then (if k < |s| then s[..k] else s)
    else if |s| + k > 0 then s[..|s| + k] else []
  }

  /** In ascending order. */
  predicate SortedAsc(s: seq<int>) {
    forall i, j :: 0 <= i < j < |s| ==> s[i] <= s[j]
  }

  /** A head at most every element of an ascending list keeps the list ascending. */
  lemma ConsSortedAsc(h: int, rest: seq<int>)
    requires SortedAsc(rest) && forall y :: y in rest ==> h <= y
    ensures SortedAsc([h] + rest)
  {
    var t := [h] + rest;
    forall i, j | 0 <= i < j < |t| ensures t[i] <= t[j] {
      assert t[j] == rest[j - 1] && rest[j - 1] in rest;
      if i > 0 { assert t[i] == rest[i - 1]; }
    }
  }

  /** Inserts `x` into an ascending sequence. */
  function InsertAsc(x: int, s: seq<int>): (r: seq<int>)
    requires SortedAsc(s)
    ensures SortedAsc(r)
    ensures forall y :: y in r <==> y == x || y in s
    ensures multiset(r) == multiset(s) + multiset{x}
  {
    if s == [] then [x]
    else if x <= s[0] then [x] + s
    else
      var rest := InsertAsc(x, s[1..]);
      InsertAscStep(x, s, rest);
      [s[0]] + rest
  }

  /** The recursive case of `InsertAsc`: `s[0]` stays in front of the insertion into `s[1..]`. */
  lemma InsertAscStep(x: int, s: seq<int>, rest: seq<int>)
    requires SortedAsc(s) && s != [] && s[0] < x
    requires SortedAsc(rest) && multiset(rest) == multiset(s[1..]) + multiset{x}
    ensures SortedAsc([s[0]] + rest)
    ensures forall y :: y in [s[0]] + rest <==> y == x || y in s
    ensures multiset([s[0]] + rest) == multiset(s) + multiset{x}
  {
    assert s == [s[0]] + s[1..];
    forall y | y in rest ensures s[0] <= y {
      assert y in multiset(rest);
      if y != x {
        assert y in multiset(s[1..]);
        var k :| 0 <= k < |s[1..]| && s[1..][k] == y;
        assert s[k + 1] == y;
      }
    }
    forall y ensures y in [s[0]] + rest <==> y == x || y in s {
      assert y in rest <==> y in multiset(rest);
      assert y in s[1..] <==> y in multiset(s[1..]);
    }
    ConsSortedAsc(s[0], rest);
  }

  /** `sorted(indices)`. */
  function SortAsc(s: seq<int>): (r: seq<int>)
    ensures SortedAsc(r)
    ensures multiset(r) == multiset(s)
  {
    if s == [] then []
    else
      assert s == [s[0]] + s[1..];
      InsertAsc(s[0], SortAsc(s[1..]))
  }

  /**
   * Sorting distinct indices below n gives the same indices, strictly
   * increasing.
   */
  lemma SortDistinct(top: seq<int>, n: nat)
    requires Distinct(top) && forall i :: 0 <= i < |top| ==> 0 <= top[i] < n
    ensures |SortAsc(top)| == |top|
    ensures forall x :: x in SortAsc(top) <==> x in top
    ensures forall i :: 0 <= i < |SortAsc(top)| ==> 0 <= SortAsc(top)[i] < n
    ensures forall i, j :: 0 <= i < j < |SortAsc(top)| ==> SortAsc(top)[i] < SortAsc(top)[j]
  {
    var sorted := SortAsc(top);
    assert |multiset(sorted)| == |multiset(top)|;
    forall x
      ensures x in sorted <==> x in top
    {
      assert x in sorted <==> x in multiset(sorted);
      assert x in top <==> x in multiset(top);
    }
    forall i | 0 <= i < |sorted|
      ensures 0 <= sorted[i] < n
    {
      assert sorted[i] in top;
    }
    DistinctCounts(top);
    CountsDistinct(sorted);
    assert forall i, j :: 0 <= i < j < |sorted| ==> sorted[i] <= sorted[j] && sorted[i] != sorted[j];
  }

  /**
   * `sorted(ranked[:k])`: the indices of the top-ranked sentences, strictly
   * increasing so that the sentences keep their order in the text, and
   * exactly the indices of the ranked prefix.
   */
  function SelectIndices(ranked: seq<int>, n: nat, k: int): (selected: seq<int>)
    requires IsPermutation(ranked, n)
    ensures |selected| == |PrefixTo(ranked, k)|
    ensures forall x :: x in selected <==> x in PrefixTo(ranked, k)
    ensures forall i :: 0 <= i < |selected| ==> 0 <= selected[i] < n
    ensures forall i, j :: 0 <= i < j < |selected| ==> selected[i] < selected[j]
  {
    var top := PrefixTo(ranked, k);
    assert forall i :: 0 <= i < |top| ==> top[i] == ranked[i];
    SortDistinct(top, n);
    SortAsc(top)
  }

  // ---------------------------------------------------------------- the summary

  /** `[sentences[idx] for idx in selected]`. */
  function Pick(sentences: seq<string>, selected: seq<int>): (picked: seq<string>)
    requires forall i :: 0 <= i < |selected| ==> 0 <= selected[i] < |sentences|
    ensures |picked| == |selected| && forall i :: 0 <= i < |picked| ==> picked[i] == sentences[selected[i]]
  {
    seq(|selected|, i requires 0 <= i < |selected| => sentences[selected[i]])
  }

  /** `" ".join(parts)`. */
  function JoinSpace(parts: seq<string>): (r: string)
    ensures parts == [] ==> r == []
    ensures parts != [] ==> parts[0] <= r
  {
    if parts == [] then []
    else if |parts| == 1 then parts[0]
    else parts[0] + " " + JoinSpace(parts[1..])
  }

  /** `" ".join` is putting the parts back together with a single space between each two. */
  lemma {:induction false} JoinSpaceRejoins(parts: seq<string>)
    requires parts != []
    ensures JoinSpace(parts) == Rejoin(parts, seq(|parts| - 1, _ => ' '))
  {
    if |parts| > 1 {
      JoinSpaceRejoins(parts[1..]);
      assert seq(|parts| - 1, _ => ' ')[1..] == seq(|parts| - 2, _ => ' ');
    }
  }

  /**
   * Sentences without surrounding whitespace joined by single spaces give a
   * text without surrounding whitespace, non-empty when there is a sentence.
   */
  lemma {:induction false} JoinStripped(parts: seq<string>)
    requires forall k :: 0 <= k < |parts| ==> parts[k] != [] && Strip(parts[k]) == parts[k]
    ensures Strip(JoinSpace(parts)) == JoinSpace(parts)
    ensures parts != [] ==> JoinSpace(parts) != [] && JoinSpace(parts)[0] == parts[0][0]
    ensures parts != [] ==> JoinSpace(parts)[|JoinSpace(parts)| - 1] == Last(parts[|parts| - 1])
  {
    if |parts| > 1 {
      JoinStripped(parts[1..]);
    }
    if parts != [] {
      var j := JoinSpace(parts);
      assert Strip(parts[0]) == parts[0] && Strip(parts[|parts| - 1]) == parts[|parts| - 1];
      StripFixed(j);
    }
  }

  /** The last character of a non-empty string. */
  function Last(s: string): char
    requires s != []
  {
    s[|s| - 1]
  }

  /**
   * The indices the summary keeps: the `NumSentences` best-ranked sentences,
   * in text order.
   */
  function Selection(sentences: seq<string>, ratio: real, minSentences: int, maxSentences: int,
                     scores: seq<real>): (selected: seq<int>)
    requires |scores| == |sentences|
    ensures forall i :: 0 <= i < |selected| ==> 0 <= selected[i] < |sentences|
    ensures forall i, j :: 0 <= i < j < |selected| ==> selected[i] < selected[j]
  {
    var ranked := RankSentences(scores);
    SelectIndices(ranked, |sentences|, NumSentences(|sentences|, ratio, minSentences, maxSentences))
  }

  /**
   * The selected sentences in text order joined by single spaces; built from
   * clean sentences it has no surrounding whitespace.
   */
  function SummaryOf(sentences: seq<string>, ratio: real, minSentences: int, maxSentences: int,
                     scores: seq<real>): (summary: string)
    requires |scores| == |sentences|
    requires forall k :: 0 <= k < |sentences| ==> sentences[k] != [] && Strip(sentences[k]) == sentences[k]
    ensures Strip(summary) == summary
  {
    var picked := Pick(sentences, Selection(sentences, ratio, minSentences, maxSentences, scores));
    JoinStripped(picked);
    JoinSpace(picked)
  }

  /**
   * `summarize`: the text itself when it has at most `minSentences` sentences;
   * otherwise the selected sentences joined, which has no surrounding
   * whitespace. Past the early return with no sentences at all (only possible
   * for a negative `minSentences`) the similarity step receives an empty
   * embedding array and raises: that failure is `None`.
   */
  function Summarize(text: string, ratio: real, minSentences: int, maxSentences: int,
                     scores: seq<real>): (summary: Option<string>)
    requires |SplitIntoSentences(text)| > minSentences ==> |scores| == |SplitIntoSentences(text)|
    ensures summary.None? <==> minSentences < 0 && SplitIntoSentences(text) == []
    ensures |SplitIntoSentences(text)| <= minSentences ==> summary == Some(text)
    ensures 0 < |SplitIntoSentences(text)| && |SplitIntoSentences(text)| > minSentences ==>
      summary.Some? &&
      summary.value == SummaryOf(SplitIntoSentences(text), ratio, minSentences, maxSentences, scores) &&
      Strip(summary.value) == summary.value
  {
    var sentences := SplitIntoSentences(text);
    if |sentences| <= minSentences then Some(text)
    else if sentences == [] then None
    else Some(SummaryOf(sentences, ratio, minSentences, maxSentences, scores))
  }

  /**
   * The empty text with a negative minimum passes the early return and fails
   * in the similarity step; with the minimum at 0 it comes back unchanged.
   */
  lemma SummarizeEmptyText()
    ensures Summarize("", 0.3, -1, 10, []) == None
    ensures Summarize("", 0.3, 0, 10, []) == Some("")
  {
    BlankTextHasNoSentences("");
  }

  /**
   * With more sentences than the minimum and a ratio between 0 and 1, the
   * summary keeps exactly `NumSentences` sentences when that number is not
   * negative; a negative number (both bounds negative) makes the slice drop
   * that many sentences from the end of the ranking instead.
   */
  lemma SelectionCount(sentences: seq<string>, ratio: real, minSentences: int, maxSentences: int,
                       scores: seq<real>)
    requires |scores| == |sentences| && |sentences| > minSentences && 0.0 <= ratio <= 1.0
    ensures var k := NumSentences(|sentences|, ratio, minSentences, maxSentences);
      |Selection(sentences, ratio, minSentences, maxSentences, scores)| ==
        if k >= 0 then k else if |sentences| + k > 0 then |sentences| + k else 0
  {
  }

  /**
   * Every kept sentence is among the `NumSentences` best-ranked ones, and every
   * one of those is kept.
   */
  lemma SelectionIsTopRanked(sentences: seq<string>, ratio: real, minSentences: int, maxSentences: int,
                             scores: seq<real>)
    requires |scores| == |sentences|
    ensures var k := NumSentences(|sentences|, ratio, minSentences, maxSentences);
      forall x :: x in Selection(sentences, ratio, minSentences, maxSentences, scores) <==>
        x in PrefixTo(RankSentences(scores), k)
  {
  }
}

=== FILE: summary_controls.dfy ===
/**
 * The summarisation parameters held by the web client and the stepping rules
 * of the +/- buttons and the ratio slider that edit them.
 *
 * The ratio is kept as a whole number of tenths: the slider's range is
 * 0.1 to 0.9 in steps of 0.1, and it is the only control that writes it.
 */
module SummaryControls {

  /** The three tunables; the client starts from ratio 0.3, min 3, max 10. */
  datatype SummaryParams = SummaryParams(ratioTenths: int, min: int, max: int) {

    /** The value of one named field. */
    function Get(name: ParamName): int {
      match name
      case Ratio => ratioTenths
      case Min => min
      case Max => max
    }

    /** `{...params, [name]: value}`: the named field replaced, the other two kept. */
    function With(name: ParamName, value: int): (q: SummaryParams)
      ensures q.Get(name) == value
      ensures forall other: ParamName :: other != name ==> q.Get(other) == Get(other)
    {
      match name
      case Ratio => this.(ratioTenths := value)
      case Min => this.(min := value)
      case Max => this.(max := value)
    }
  }

  /** The field names the controls pass to the change callback. */
  datatype ParamName = Ratio | Min | Max

  const DefaultParams := SummaryParams(3, 3, 10)

  /** Bounds of the sentence-count buttons and of the slider (in tenths). */
  const MinFloor := 1
  const MinCeiling := 20
  const MaxCeiling := 50
  const RatioLow := 1
  const RatioHigh := 9

  /** The four buttons beside the two sentence-count inputs. */
  datatype Button = MinMinus | MinPlus | MaxMinus | MaxPlus

  /** The field a button writes. */
  function Target(b: Button): ParamName {
    match b
    case MinMinus => Min
    case MinPlus => Min
    case MaxMinus => Max
    case MaxPlus => Max
  }

  /**
   * The value a button passes to the change callback:
   * `Math.max(1, min - 1)`, `Math.min(20, min + 1)`,
   * `Math.max(params.min, max - 1)`, `Math.min(50, max + 1)`.
   */
  function StepValue(p: SummaryParams, b: Button): (v: int)
    ensures b == MinMinus ==> v >= MinFloor && v >= p.min - 1 && (p.min > MinFloor ==> v < p.min)
    ensures b == MinPlus ==> v <= MinCeiling && v <= p.min + 1 && (p.min < MinCeiling ==> v > p.min)
    ensures b == MaxMinus ==> v >= p.min && v >= p.max - 1 && (p.max > p.min ==> v < p.max)
    ensures b == MaxPlus ==> v <= MaxCeiling && v <= p.max + 1 && (p.max < MaxCeiling ==> v > p.max)
    ensures b == MinMinus ==> v == MinFloor || v == p.min - 1
    ensures b == MinPlus ==> v == MinCeiling || v == p.min + 1
    ensures b == MaxMinus ==> v == p.min || v == p.max - 1
    ensures b == MaxPlus ==> v == MaxCeiling || v == p.max + 1
  {
    match b
    case MinMinus => if MinFloor > p.min - 1 then MinFloor else p.min - 1
    case MinPlus => if MinCeiling < p.min + 1 then MinCeiling else p.min + 1
    case MaxMinus => if p.min > p.max - 1 then p.min else p.max - 1
    case MaxPlus => if MaxCeiling < p.max + 1 then MaxCeiling else p.max + 1
  }

  /** The parameters after a button click has gone through the change callback. */
  function Click(p: SummaryParams, b: Button): (q: SummaryParams)
    ensures q.Get(Target(b)) == StepValue(p, b)
    ensures forall other: ParamName :: other != Target(b) ==> q.Get(other) == p.Get(other)
  {
    p.With(Target(b), StepValue(p, b))
  }

  /** The parameters after a sequence of clicks. */
  function Clicks(p: SummaryParams, bs: seq<Button>): (q: SummaryParams)
    ensures bs == [] ==> q == p
    ensures |bs| == 1 ==> q == Click(p, bs[0])
    decreases |bs|
  {
    if bs == [] then p else Clicks(Click(p, bs[0]), bs[1..])
  }

  /**
   * The slider's value for a requested position, in tenths: the range input
   * keeps its value between its `min` and `max` attributes.
   */
  function SliderTenths(requested: int): (t: int)
    ensures RatioLow <= t <= RatioHigh
    ensures RatioLow <= requested <= RatioHigh ==> t == requested
    ensures requested < RatioLow ==> t == RatioLow
    ensures requested > RatioHigh ==> t == RatioHigh
  {
    if requested < RatioLow then RatioLow else if requested > RatioHigh then RatioHigh else requested
  }

  /** The parameters after the slider is moved. */
  function Slide(p: SummaryParams, requested: int): (q: SummaryParams)
    ensures q.ratioTenths == SliderTenths(requested) && q.min == p.min && q.max == p.max
  {
    p.With(Ratio, SliderTenths(requested))
  }

  /** Clicking one sequence and then another is clicking their concatenation. */
  lemma {:induction false} ClicksAppend(p: SummaryParams, a: seq<Button>, b: seq<Button>)
    ensures Clicks(p, a + b) == Clicks(Clicks(p, a), b)
    decreases |a|
  {
    if a == [] {
      assert a + b == b;
    } else {
      ClicksAppend(Click(p, a[0]), a[1..], b);
      assert (a + b)[0] == a[0] && (a + b)[1..] == a[1..] + b;
    }
  }

  /** Every field within the range its controls admit. */
  predicate InRange(p: SummaryParams) {
    RatioLow <= p.ratioTenths <= RatioHigh &&
    MinFloor <= p.min <= MinCeiling &&
    MinFloor <= p.max <= MaxCeiling
  }

  /** The sentence bounds in order. */
  predicate Ordered(p: SummaryParams) {
    p.min <= p.max
  }

  /** A click on a button at its bound leaves the parameters as they were. */
  lemma StepFixpoints(p: SummaryParams)
    ensures p.min == MinFloor ==> Click(p, MinMinus) == p
    ensures p.min == MinCeiling ==> Click(p, MinPlus) == p
    ensures p.max == MaxCeiling ==> Click(p, MaxPlus) == p
    ensures p.max == p.min ==> Click(p, MaxMinus) == p
  {
  }

  /** "max -" never takes max below min, whatever the order was before. */
  lemma MaxMinusEstablishesOrder(p: SummaryParams)
    ensures Ordered(Click(p, MaxMinus))
  {
  }

  /** When min already exceeds max, "max -" raises max up to min. */
  lemma MaxMinusRaisesMax(p: SummaryParams)
    requires p.min > p.max
    ensures Click(p, MaxMinus).max == p.min > p.max
  {
  }

  /**
   * "max +" (while min is at most 50), "min -" (while max is positive) and
   * "min +" (while min is below max) keep the bounds in order.
   */
  lemma StepsKeepingOrder(p: SummaryParams)
    requires Ordered(p)
    ensures p.min <= MaxCeiling ==> Ordered(Click(p, MaxPlus))
    ensures p.max >= MinFloor ==> Ordered(Click(p, MinMinus))
    ensures p.min < p.max ==> Ordered(Click(p, MinPlus))
  {
  }

  /** "min +" does not look at max: from min == max it puts min above max. */
  lemma MinPlusBreaksOrder(p: SummaryParams)
    requires p.min == p.max < MinCeiling
    ensures Ordered(p) && !Ordered(Click(p, MinPlus))
  {
  }

  /** The default parameters with "min +" clicked seven times: min 10, max 10, then min 11. */
  lemma MinPlusFromDefaults()
    ensures Ordered(Clicks(DefaultParams, seq(7, _ => MinPlus)))
    ensures !Ordered(Clicks(DefaultParams, seq(8, _ => MinPlus)))
  {
    var p := DefaultParams;
    ClicksMinPlus(p, 7);
    ClicksMinPlus(p, 8);
  }

  /** Clicking "min +" k times below the ceiling raises min by k and leaves max alone. */
  lemma {:induction false} ClicksMinPlus(p: SummaryParams, k: nat)
    requires p.min + k <= MinCeiling
    ensures Clicks(p, seq(k, _ => MinPlus)) == p.(min := p.min + k)
    decreases k
  {
    if k > 0 {
      var bs := seq(k, _ => MinPlus);
      assert bs[0] == MinPlus && bs[1..] == seq(k - 1, _ => MinPlus);
      ClicksMinPlus(Click(p, MinPlus), k - 1);
    }
  }

  /** One click keeps every field within its range. */
  lemma ClickKeepsRange(p: SummaryParams, b: Button)
    requires InRange(p)
    ensures InRange(Click(p, b))
  {
  }

  /** Any sequence of clicks from in-range parameters stays in range. */
  lemma {:induction false} ClicksKeepRange(p: SummaryParams, bs: seq<Button>)
    requires InRange(p)
    ensures InRange(Clicks(p, bs))
    decreases |bs|
  {
    if bs != [] {
      ClickKeepsRange(p, bs[0]);
      ClicksKeepRange(Click(p, bs[0]), bs[1..]);
    }
  }

  /** The slider keeps every field within its range. */
  lemma SlideKeepsRange(p: SummaryParams, requested: int)
    requires InRange(p)
    ensures InRange(Slide(p, requested)) && Ordered(Slide(p, requested)) == Ordered(p)
  {
  }
}

=== FILE: uri_encoding.dfy ===
/**
 * ECMAScript `encodeURIComponent` (ECMA-262, section 19.2.6.5) as used by the
 * download handler of the web client: every character outside the unreserved
 * set is turned into its UTF-8 bytes, each written as a percent-encoded octet
 * triplet `%XY` with upper-case hexadecimal digits (section 2.1 of RFC 3986).
 *
 * Beside the encoder the module defines an independent decoder and proves that
 * decoding an encoded string gives the string back, so the encoding is
 * injective and never loses information.
 */
module UriEncoding {
  import opened Common

  /**
   * The characters `encodeURIComponent` leaves as they are: ASCII letters,
   * digits and `- _ . ! ~ * ' ( )`.
   */
  predicate IsUnreserved(c: char) {
    ('A' <= c <= 'Z') || ('a' <= c <= 'z') || ('0' <= c <= '9') ||
    c == '-' || c == '_' || c == '.' || c == '!' || c == '~' ||
    c == '*' || c == '\'' || c == '(' || c == ')'
  }

  /** The upper-case hexadecimal digit of `d`. */
  function HexDigit(d: int): (c: char)
    requires 0 <= d < 16
    ensures IsUnreserved(c)
    ensures HexValue(c) == Some(d)
  {
    if d < 10 then ('0' as int + d) as char else ('A' as int + d - 10) as char
  }

  /** The value of a hexadecimal digit of either case (RFC 3986 treats them alike). */
  function HexValue(c: char): (r: Option<int>)
    ensures r.Some? ==> 0 <= r.value < 16
    ensures r.Some? <==> ('0' <= c <= '9') || ('A' <= c <= 'F') || ('a' <= c <= 'f')
  {
    if '0' <= c <= '9' then Some(c as int - '0' as int)
    else if 'A' <= c <= 'F' then Some(c as int - 'A' as int + 10)
    else if 'a' <= c <= 'f' then Some(c as int - 'a' as int + 10)
    else None
  }

  // ---------------------------------------------------------------- UTF-8

  /** Whether `n` is a Unicode scalar value, i.e. a code point that is not a surrogate. */
  predicate IsScalarValue(n: int) {
    (0 <= n < 0xD800) || (0xE000 <= n < 0x11_0000)
  }

  /** A UTF-8 continuation byte `10xxxxxx`. */
  predicate IsContinuation(b: Byte) {
    0x80 <= b < 0xC0
  }

  /** The six payload bits of a continuation byte. */
  function Low6(b: Byte): int {
    b as int - 0x80
  }

  /** The UTF-8 encoding of one character: one to four octets. */
  function Utf8Char(c: char): (bs: seq<Byte>)
    ensures 1 <= |bs| <= 4
    ensures |bs| == 1 <==> c as int < 0x80
    ensures |bs| == 1 ==> bs[0] == c as int
  {
    var n := c as int;
    if n < 0x80 then [n]
    else if n < 0x800 then [0xC0 + n / 64, 0x80 + n % 64]
    else if n < 0x1_0000 then [0xE0 + n / 4096, 0x80 + (n / 64) % 64, 0x80 + n % 64]
    else [0xF0 + n / 262144, 0x80 + (n / 4096) % 64, 0x80 + (n / 64) % 64, 0x80 + n % 64]
  }

  /** The UTF-8 encoding of a string. */
  function Utf8Encode(s: string): (bs: seq<Byte>)
    ensures |bs| >= |s|
  {
    if s == [] then [] else Utf8Char(s[0]) + Utf8Encode(s[1..])
  }

  /** A decoded code point, if it is a scalar value, paired with the bytes that follow. */
  function ScalarThen(n: int, rest: seq<Byte>): Option<(char, seq<Byte>)> {
    if IsScalarValue(n) then Some((n as char, rest)) else None
  }

  /** Decodes the first UTF-8 sequence of `bs`, giving the character and the remaining bytes. */
  function Utf8DecodeOne(bs: seq<Byte>): (r: Option<(char, seq<Byte>)>)
    ensures r.Some? ==> |r.value.1| < |bs|
  {
    if |bs| == 0 then None
    else
      var b0: int := bs[0];
      if b0 < 0x80 then Some((b0 as char, bs[1..]))
      else if 0xC0 <= b0 < 0xE0 && |bs| >= 2 && IsContinuation(bs[1]) then
        ScalarThen((b0 - 0xC0) * 64 + Low6(bs[1]), bs[2..])
      else if 0xE0 <= b0 < 0xF0 && |bs| >= 3 && IsContinuation(bs[1]) && IsContinuation(bs[2]) then
        ScalarThen((b0 - 0xE0) * 4096 + Low6(bs[1]) * 64 + Low6(bs[2]), bs[3..])
      else if 0xF0 <= b0 < 0xF8 && |bs| >= 4 && IsContinuation(bs[1]) && IsContinuation(bs[2])
        && IsContinuation(bs[3]) then
        ScalarThen((b0 - 0xF0) * 262144 + Low6(bs[1]) * 4096 + Low6(bs[2]) * 64 + Low6(bs[3]), bs[4..])
      else None
  }

  /** Decodes a whole UTF-8 byte sequence; `None` if any part of it is malformed. */
  function Utf8Decode(bs: seq<Byte>): Option<string>
    decreases |bs|
  {
    if bs == [] then Some([])
    else match Utf8DecodeOne(bs)
      case None => None
      case Some((c, rest)) =>
        match Utf8Decode(rest)
        case None => None
        case Some(s) => Some([c] + s)
  }

  /** A code point below 0x1_0000 written as three base-64 digits. */
  lemma ThreeDigits(n: int)
    requires 0 <= n
    ensures n == (n / 4096) * 4096 + ((n / 64) % 64) * 64 + n % 64
  {
    var q := n / 64;
    assert n == q * 64 + n % 64;
    assert q == (q / 64) * 64 + q % 64;
    assert q / 64 == n / 4096;
  }

  /** A code point written as four base-64 digits. */
  lemma FourDigits(n: int)
    requires 0 <= n
    ensures n == (n / 262144) * 262144 + ((n / 4096) % 64) * 4096 + ((n / 64) % 64) * 64 + n % 64
  {
    ThreeDigits(n);
    var q := n / 4096;
    assert q == (q / 64) * 64 + q % 64;
    assert q / 64 == n / 262144;
  }

  /** The two-byte case of `Utf8CharRoundTrip`. */
  lemma Utf8TwoRoundTrip(c: char, rest: seq<Byte>)
    requires 0x80 <= c as int < 0x800
    ensures Utf8DecodeOne(Utf8Char(c) + rest) == Some((c, rest))
  {
    var n := c as int;
    var bs := Utf8Char(c) + rest;
    assert bs[0] == 0xC0 + n / 64 && bs[1] == 0x80 + n % 64;
    assert bs[2..] == rest;
  }

  /** The three-byte case of `Utf8CharRoundTrip`. */
  lemma Utf8ThreeRoundTrip(c: char, rest: seq<Byte>)
    requires 0x800 <= c as int < 0x1_0000
    ensures Utf8DecodeOne(Utf8Char(c) + rest) == Some((c, rest))
  {
    var n := c as int;
    var bs := Utf8Char(c) + rest;
    ThreeDigits(n);
    assert bs[0] == 0xE0 + n / 4096 && bs[1] == 0x80 + (n / 64) % 64 && bs[2] == 0x80 + n % 64;
    assert bs[3..] == rest;
  }

  /** The four-byte case of `Utf8CharRoundTrip`. */
  lemma Utf8FourRoundTrip(c: char, rest: seq<Byte>)
    requires 0x1_0000 <= c as int
    ensures Utf8DecodeOne(Utf8Char(c) + rest) == Some((c, rest))
  {
    var n := c as int;
    var bs := Utf8Char(c) + rest;
    FourDigits(n);
    assert bs[0] == 0xF0 + n / 262144 && bs[1] == 0x80 + (n / 4096) % 64;
    assert bs[2] == 0x80 + (n / 64) % 64 && bs[3] == 0x80 + n % 64;
    assert bs[4..] == rest;
  }

  /** Decoding the encoding of one character yields that character and leaves what follows. */
  lemma Utf8CharRoundTrip(c: char, rest: seq<Byte>)
    ensures Utf8DecodeOne(Utf8Char(c) + rest) == Some((c, rest))
  {
    var n := c as int;
    if n < 0x80 {
    } else if n < 0x800 {
      Utf8TwoRoundTrip(c, rest);
    } else if n < 0x1_0000 {
      Utf8ThreeRoundTrip(c, rest);
    } else {
      Utf8FourRoundTrip(c, rest);
    }
  }

  /** UTF-8 decoding inverts UTF-8 encoding. */
  lemma {:induction false} Utf8RoundTrip(s: string)
    ensures Utf8Decode(Utf8Encode(s)) == Some(s)
  {
    if s != [] {
      Utf8CharRoundTrip(s[0], Utf8Encode(s[1..]));
      Utf8RoundTrip(s[1..]);
      assert [s[0]] + s[1..] == s;
    }
  }

  // ---------------------------------------------------------------- percent-encoding

  /** The octet triplet `%XY` for one byte. */
  function PercentTriplet(b: Byte): string {
    ['%', HexDigit(b / 16), HexDigit(b % 16)]
  }

  /** Every byte of `bs` as an octet triplet. */
  function PercentBytes(bs: seq<Byte>): (r: string)
    ensures |r| == 3 * |bs|
  {
    if bs == [] then [] else PercentTriplet(bs[0]) + PercentBytes(bs[1..])
  }

  /** Octet triplets are written with `%` and unreserved hexadecimal digits only. */
  lemma {:induction false} PercentBytesSafe(bs: seq<Byte>)
    ensures forall i :: 0 <= i < |PercentBytes(bs)| ==>
      IsUnreserved(PercentBytes(bs)[i]) || PercentBytes(bs)[i] == '%'
  {
    if bs != [] {
      PercentBytesSafe(bs[1..]);
      var head := PercentTriplet(bs[0]);
      var tail := PercentBytes(bs[1..]);
      forall i | 0 <= i < |head + tail|
        ensures IsUnreserved((head + tail)[i]) || (head + tail)[i] == '%'
      {
        if i >= 3 { assert (head + tail)[i] == tail[i - 3]; }
      }
    }
  }

  /** One character as `encodeURIComponent` writes it. */
  function EncodeChar(c: char): (r: string)
    ensures forall i :: 0 <= i < |r| ==> IsUnreserved(r[i]) || r[i] == '%'
  {
    if IsUnreserved(c) then [c]
    else
      PercentBytesSafe(Utf8Char(c));
      PercentBytes(Utf8Char(c))
  }

  /**
   * `encodeURIComponent(s)`. The result consists of unreserved characters and
   * `%` only, so in particular it holds no `/` and no space: it can be placed in
   * a single path segment of a URL.
   */
  function EncodeURIComponent(s: string): (r: string)
    ensures forall i :: 0 <= i < |r| ==> IsUnreserved(r[i]) || r[i] == '%'
    ensures forall i :: 0 <= i < |r| ==> r[i] != '/' && r[i] != ' '
    ensures |r| >= |s|
  {
    if s == [] then [] else EncodeChar(s[0]) + EncodeURIComponent(s[1..])
  }

  /**
   * Percent-decoding: `%XY` (either case) becomes the byte XY, any other ASCII
   * character stands for itself, a stray `%` or a non-ASCII character is an error.
   */
  function PercentDecode(s: string): Option<seq<Byte>>
  {
    if s == [] then Some([])
    else if s[0] == '%' then
      if |s| >= 3 && HexValue(s[1]).Some? && HexValue(s[2]).Some? then
        match PercentDecode(s[3..])
        case None => None
        case Some(rest) => Some([HexValue(s[1]).value * 16 + HexValue(s[2]).value] + rest)
      else None
    else if s[0] as int < 0x80 then
      match PercentDecode(s[1..])
      case None => None
      case Some(rest) => Some([s[0] as int] + rest)
    else None
  }

  /** The inverse of `EncodeURIComponent`: percent-decoding followed by UTF-8 decoding. */
  function DecodeURIComponent(s: string): Option<string> {
    match PercentDecode(s)
    case None => None
    case Some(bs) => Utf8Decode(bs)
  }

  /** Decoding one octet triplet recovers its byte, whatever follows it. */
  lemma PercentTripletDecode(b: Byte, u: string, rest: seq<Byte>)
    requires PercentDecode(u) == Some(rest)
    ensures PercentDecode(PercentTriplet(b) + u) == Some([b] + rest)
  {
    var s := PercentTriplet(b) + u;
    assert s[0] == '%' && s[1] == HexDigit(b / 16) && s[2] == HexDigit(b % 16);
    assert s[3..] == u;
    assert HexValue(s[1]).value * 16 + HexValue(s[2]).value == b;
  }

  /** Splitting off the head of `bs` before appending `tail`. */
  lemma ConsAppend<T>(bs: seq<T>, tail: seq<T>)
    requires bs != []
    ensures [bs[0]] + (bs[1..] + tail) == bs + tail
  {
    assert bs == [bs[0]] + bs[1..];
  }

  /** Decoding octet triplets recovers their bytes, whatever follows them. */
  lemma {:induction false} PercentBytesDecode(bs: seq<Byte>, t: string, tail: seq<Byte>)
    requires PercentDecode(t) == Some(tail)
    ensures PercentDecode(PercentBytes(bs) + t) == Some(bs + tail)
  {
    if bs == [] {
      assert PercentBytes(bs) + t == t && bs + tail == tail;
    } else {
      PercentBytesDecode(bs[1..], t, tail);
      PercentBytesDecodeStep(bs, t, tail);
    }
  }

  /** `PercentBytes` of a non-empty sequence starts with the triplet of its first byte. */
  lemma PercentBytesCons(bs: seq<Byte>, t: string)
    requires bs != []
    ensures PercentBytes(bs) + t == PercentTriplet(bs[0]) + (PercentBytes(bs[1..]) + t)
  {
  }

  /** The recursive case of `PercentBytesDecode`: one more triplet in front. */
  lemma PercentBytesDecodeStep(bs: seq<Byte>, t: string, tail: seq<Byte>)
    requires bs != []
    requires PercentDecode(PercentBytes(bs[1..]) + t) == Some(bs[1..] + tail)
    ensures PercentDecode(PercentBytes(bs) + t) == Some(bs + tail)
  {
    PercentBytesCons(bs, t);
    PercentTripletDecode(bs[0], PercentBytes(bs[1..]) + t, bs[1..] + tail);
    ConsAppend(bs, tail);
  }

  /** Percent-decoding the encoding of a string gives the string's UTF-8 bytes. */
  lemma {:induction false} PercentDecodeEncode(s: string)
    ensures PercentDecode(EncodeURIComponent(s)) == Some(Utf8Encode(s))
  {
    if s != [] {
      PercentDecodeEncode(s[1..]);
      var rest := EncodeURIComponent(s[1..]);
      var e := EncodeURIComponent(s);
      assert e == EncodeChar(s[0]) + rest;
      if IsUnreserved(s[0]) {
        assert e[1..] == rest;
      } else {
        PercentBytesDecode(Utf8Char(s[0]), rest, Utf8Encode(s[1..]));
      }
    }
  }

  /** `DecodeURIComponent(EncodeURIComponent(s)) == s` for every string. */
  lemma EncodeRoundTrip(s: string)
    ensures DecodeURIComponent(EncodeURIComponent(s)) == Some(s)
  {
    PercentDecodeEncode(s);
    Utf8RoundTrip(s);
  }

  /** Two strings with the same encoding are equal. */
  lemma EncodeInjective(s: string, t: string)
    requires EncodeURIComponent(s) == EncodeURIComponent(t)
    ensures s == t
  {
    EncodeRoundTrip(s);
    EncodeRoundTrip(t);
  }
}
